=== FILE: README.md ===
# autork duel engine — a Dafny model

This project models the turn-resolution engine of autork, a duel in which two
strategies compete for territory. A `PlayerState` holds gold, territory, attack
units, defense units, a lifetime expansion counter, this turn's expansion bid
and an intel flag. Each turn the engine does the following, in order:

1. It pays income and charges upkeep for both players. A deficit forces
   demobilisation, attack units first.
2. It shows each strategy an observation. The enemy's gold, attack and defense
   appear only with intel.
3. It asks each strategy for one command. A failing strategy counts as the
   empty command.
4. It applies each command in a fixed order: sell attack, sell defense, pay for
   the expansion bid, scout, buy attack, buy defense.
5. It resolves the bids for the neutral pool simultaneously. Both players pay
   for contested cells, but those cells stay neutral.
6. It fights. Each side loses the excess of the enemy's attack over its own
   defense, and lost cells return to the pool.
7. It sets each intel flag from that player's command.

The match ends on elimination or after `MAX_TURNS` turns. At the end the
richer player wins.

## Modules

Everything is modelled as immutable datatypes and pure functions:

- `Config`: the settings record.
- `Pricing`: the linear price curve and the greedy buy loop.
- `Economy`: the per-player operations.
- `Commands`: `_apply_commands`.
- `Board`: neutral allocation, combat and the winner rule.
- `Engine`: observations, one turn, the `run` loop, and the fairness of the whole match.
- `Scenarios`: the unit tests' situations, evaluated on the model.

A strategy is modelled as an arbitrary function from the observations it has
been shown so far (the one given to `reset`, then one per turn) to an optional
command. `None` stands for a `step` that raised an `Exception` or returned a
non-mapping, which `_safe_step` turns into the empty command.

## Notes on the code

- The module docstring of autork/engine.py (lines 9-15) says that no strategy
  gains from the order of calls. `_allocate_neutral` does serve player 1's
  unique demand before player 2's (autork/engine.py:356-359), but the order is
  never observable. Once the contested overlap `min(a1, a2, N)` is set aside,
  either the smaller bid is used up or the pool is empty, so at most one player
  is granted cells (`Board.AtMostOneGrant`). `Board.AllocationSymmetric`
  proves that exchanging the players exchanges the allocation, and
  `Engine.RunSymmetric` proves that exchanging the two strategies exchanges
  the whole result.
- The intel flag is set from the command's `scout` field
  (autork/engine.py:239-240) even when the scout was not charged because the
  player could not afford it (autork/engine.py:319-324). The model does the
  same; see `Engine.UnpaidScoutStillGrantsIntel`.
- tests/test_engine.py:67-79 expects attack prices 20/22/24 and defense prices
  13/14. With the configured defaults (`ATK_K = 1`, `DEF_BASE = 9`, `DEF_K = 3`)
  the code charges 20 + 21 = 41 for two attack units, and then 9 for one
  defense unit out of 18. The scenario lemmas state the code's figures.
- The buy loops terminate exactly when the unit price curve is not constantly
  zero, that is when `BASE > 0 || K > 0`; with `BASE = 0` the first unit is
  free, but later ones are not. `Config.Valid` requires this for attack and
  defense.

## Model

| member | source | states |
|---|---|---|
| Config.Defaults | autork/config.py:4-23 | the shipped constants make both unit price curves rise, so both buy loops halt |
| Economy.NewPlayer | autork/engine.py:32-41 | a fresh player has the configured starting gold, territory and units, no expansion history, no bid and no intel |
| Economy.Income | autork/engine.py:43-44 | income is zero exactly when the player holds no land or the rate is zero, and otherwise at least one gold per cell |
| Economy.UpkeepCost | autork/engine.py:46-47 | upkeep is zero exactly when every held unit kind has zero maintenance, and is at least the maintenance of either unit kind |
| Economy.Demobilize | autork/engine.py:53-63 | while gold is negative, units are disbanded, every attack unit before any defense unit; each credits its maintenance back; it stops as soon as gold is covered or no unit is left |
| Economy.ApplyUpkeep | autork/engine.py:49-64 | gold ends at or above zero; an affordable upkeep is just charged; otherwise gold is the charge plus freed maintenance, clamped at zero, attack units go before defense units, and no more units go than the deficit needs |
| Economy.ExpandPrice | autork/engine.py:67-69 | the price of the next cell is at least `EXPAND_BASE` and is exactly what one more cell adds to the cost of the batch |
| Economy.PayLoop | autork/engine.py:76-85 | the payment loop never exceeds the wanted count, charges exactly the running prices, keeps gold non-negative and stops early only when the next cell is unaffordable |
| Economy.PayForExpands | autork/engine.py:71-86 | only gold and the bid change; bid ≤ wanted; gold drops by exactly the sum of the running cell prices and stays non-negative; a short bid means the next price exceeds the gold left |
| Economy.PayForExpandsIsMaximal | autork/engine.py:71-86 | for non-negative gold, a batch of n cells is at most the bid exactly when n ≤ wanted and the batch is affordable |
| Economy.ExpandPriceIncreasing | autork/engine.py:67-69 | with a positive step each further cell of a batch is strictly dearer |
| Economy.AttackPrice | autork/engine.py:89-90 | the attack price is at least `ATK_BASE` and is the cost of buying one attack unit at the current count |
| Economy.DefensePrice | autork/engine.py:92-93 | the defense price is at least `DEF_BASE` and is the cost of buying one defense unit at the current count |
| Economy.BuyAttack | autork/engine.py:95-102 | only gold and attack change; gold drops by exactly the spend, which is the sum of the running unit prices and within the limit; the gold left under the limit is below the next unit's price |
| Economy.BuyDefense | autork/engine.py:104-111 | the same for defense units on the defense curve |
| Economy.RefundAttack | autork/engine.py:113-118 | sells `max(0, min(units, held))` attack units, never more than held, for that count times `ATK_BASE // 2`; nothing else changes |
| Economy.RefundDefense | autork/engine.py:120-125 | the same for defense units at `DEF_BASE // 2` each |
| Economy.RefundAttackIgnoresCount | autork/engine.py:113-118 | the refund for an attack sale does not depend on how many attack units were held |
| Economy.RefundDefenseIgnoresCount | autork/engine.py:120-125 | the refund for a defense sale does not depend on how many defense units were held |
| Economy.AttackResaleLoses | autork/engine.py:95-118 | buying attack units and selling them straight back never leaves more gold than before |
| Economy.DefenseResaleLoses | autork/engine.py:104-125 | buying defense units and selling them straight back never leaves more gold than before |
| Pricing.Greedy | autork/engine.py:95-102 | the buy loop spends exactly the running prices of the units it buys, within budget, and stops only when the next unit costs more than the budget left |
| Pricing.GreedyIsMaximal | autork/engine.py:95-111 | for a non-negative budget, n units are affordable exactly when n is at most the number the loop buys |
| Pricing.LinearPriceIncreasing | autork/engine.py:89-93 | with a positive slope a later position on a price curve is strictly dearer |
| Pricing.LinearCostMonotone | autork/engine.py:95-111 | a larger batch on a curve never costs less |
| Pricing.LinearCostClosedForm | autork/engine.py:67-69 | a batch of n items from position f costs `n*base + slope*(n*f + n*(n-1)/2)` |
| Commands.Amount | autork/engine.py:302-333 | a numeric field reads as zero exactly when it is missing or not positive, and otherwise as its own value |
| Commands.SellAndBid | autork/engine.py:302-316 | the two sales happen as the refunds dictate, then the expansion is paid for at running prices, up to the requested count, keeping gold non-negative |
| Commands.ScoutAndArm | autork/engine.py:318-337 | the scout is charged only when affordable; each spend is clamped to the gold then held; the unit purchases are exact and maximal; gold stays non-negative |
| Commands.ApplyCommands | autork/engine.py:293-341 | territory, expansion history and intel are untouched; the bid is at most the requested expansion; gold never goes negative |
| Commands.ApplyCommandsSales | autork/engine.py:302-310 | each sale sells `max(0, min(request, held))` units at half the base price |
| Commands.ApplyCommandsLedger | autork/engine.py:312-337 | gold is refunds in, expansion at running prices out, the scout fee only when it was requested and affordable, then the attack and defense spends, each clamped to the gold left |
| Commands.ApplyCommandsPurchases | autork/engine.py:326-337 | the units bought on top of those kept cost exactly their running prices, stay within each clamped budget, and stop only when the next unit is too dear |
| Commands.SameRequestSameEffect | autork/engine.py:302-337 | two commands that agree on every recognised field, read as the engine reads it, have the same effect |
| Commands.UnknownKeyIgnored | autork/engine.py:339-341 | a key outside the six recognised fields changes nothing |
| Commands.NegativeActsAsMissing | autork/engine.py:302-333 | a negative or zero amount acts exactly as a missing field |
| Commands.EmptyCommandIsNoOp | autork/engine.py:302-337 | the empty command, which a failing strategy issues, changes nothing but the bid, when no unit is free |
| Board.AllocateNeutral | autork/engine.py:344-378 | cells are conserved; the contested overlap stays neutral; each grant is at most that player's unique demand and falls short only when the pool runs out; `expandedTotal` grows by exactly the grant; both bids are cleared |
| Board.AtMostOneGrant | autork/engine.py:348-359 | in one allocation at most one player gains cells |
| Board.AllocationSymmetric | autork/engine.py:344-378 | exchanging the players exchanges the allocation, so the player-1-first order is never observable |
| Board.EqualBidsGrantNothing | autork/engine.py:344-378 | equal bids are wholly contested: no territory, expansion count or pool size changes |
| Board.ResolveCombat | autork/engine.py:381-395 | cells are conserved; each side loses the excess of the enemy's attack over its defense, up to its territory; lost cells return to neutral; units are untouched |
| Board.CombatSymmetric | autork/engine.py:381-395 | exchanging the players exchanges the combat outcome |
| Board.CheckWinner | autork/engine.py:401-416 | draw exactly when both are eliminated or at the end with equal gold; a player wins exactly when the other alone is eliminated or at the end with less gold; none exactly before the end with both alive |
| Board.WinnerSymmetric | autork/engine.py:401-416 | exchanging the players mirrors the verdict |
| Engine.PrepareObs | autork/engine.py:243-272 | the enemy's gold, attack and defense are shown exactly when the observer holds intel; the enemy's territory, own figures, all four prices (next cell, attack, defense, scout) and the gold limit are always shown |
| Engine.NoIntelHidesEnemy | autork/engine.py:258-267 | without intel the observation does not depend on the enemy's private figures |
| Engine.IntelRevealsEnemy | autork/engine.py:258-267 | with intel, different private enemy figures give different observations |
| Engine.SafeStep | autork/engine.py:283-291 | a failing strategy yields the empty command, otherwise its own command |
| Engine.EarnAndUpkeep | autork/engine.py:214-216 | income is credited before upkeep: when income covers the upkeep, gold moves by exactly income minus upkeep and nothing else changes; in a deficit, gold is what the shortfall plus the freed units' rates leaves, floored at zero, defense is touched only once attack is gone, and a unit is disbanded only while the balance without its rate would still be negative, and units keep being disbanded until the gold is covered or none is left; in every case gold ends non-negative, units only decrease, and territory, expansion history, bid and intel are untouched |
| Engine.Resolve | autork/engine.py:228-240 | cells are conserved; non-negative gold stays so; bids are cleared; expansion history never shrinks; each intel flag equals that player's scout request |
| Engine.UnpaidScoutStillGrantsIntel | autork/engine.py:239-240 | a scout request the player cannot afford is not charged, yet sets the intel flag |
| Engine.PlayTurn | autork/engine.py:212-240 | a turn keeps gold non-negative and the cell count constant; it appends one observation per strategy, showing the gold after income and upkeep and enemy intel exactly when the intel flag was set on the previous turn; each new intel flag is the scout request of the command issued from that observation |
| Engine.RunFrom | autork/engine.py:189-198 | the loop never passes `MAX_TURNS`, keeps the invariant, and ends either at `MAX_TURNS` or on a turn that declares a winner |
| Engine.Continue | autork/engine.py:197-198 | after a turn the loop stops at once when that turn declared a winner or reached `MAX_TURNS`; otherwise it ends at `MAX_TURNS` or on a later decided turn; it keeps the invariant |
| Engine.Reset | autork/engine.py:151-158 | the reset state is at turn 0 with the configured neutral pool and two fresh players, and satisfies the invariant |
| Engine.ResultOf | autork/engine.py:419-436 | the winner is decided by elimination first (the one player left with cells wins; none left is a draw), and otherwise by strictly more gold, equal gold being a draw; the result reports the turn, the pool and each player's territory, gold, attack and defense |
| Engine.Run | autork/engine.py:181-203 | a winner is always reported and it is the one the final standings decide: player 1 wins exactly when it holds cells and player 2 holds none or less gold, symmetrically for player 2, and a draw otherwise; at most `MAX_TURNS` turns are played; fewer only after an elimination; the cell count is conserved and gold is non-negative |
| Engine.ResolveSymmetric | autork/engine.py:228-240 | resolving the two commands does not depend on which player comes first |
| Engine.PlayTurnSymmetric | autork/engine.py:212-240 | exchanging the strategies exchanges the turn |
| Engine.RunFromSymmetric | autork/engine.py:189-198 | exchanging the strategies exchanges the rest of the match |
| Engine.RunSymmetric | autork/engine.py:181-203 | exchanging the strategies exchanges the whole result and mirrors the winner |
| Scenarios.IncomeIsOnePerCell | tests/test_engine.py:27-31 | 25 cells yield 25 gold under the defaults |
| Scenarios.UpkeepDisbandsAttackFirst | tests/test_engine.py:34-43 | 2 gold against an upkeep of 14 disbands all three attack units and leaves gold 0 and both defense units |
| Scenarios.ExpansionPaysRunningPrices | tests/test_engine.py:46-64 | three cells cost 10 + 11 + 12 out of 50; a second bid of three buys one cell, priced from the same lifetime count |
| Scenarios.DefaultAttackPrices | tests/test_engine.py:67-74 | under the defaults 60 gold buys two attack units for 41 |
| Scenarios.DefaultDefensePrices | tests/test_engine.py:76-79 | under the defaults a limit of 18 buys one defense unit for 9 |
| Scenarios.ContestedBidsStayNeutral | tests/test_engine.py:92-103 | a pool of 5 with two bids of 3 grants nothing and keeps 5 neutral |
| Scenarios.UniqueBidIsGranted | tests/test_engine.py:106-115 | a pool of 4 with bids 3 and 0 grants 3 to player 1 and leaves 1 |
| Scenarios.CombatTakesExcessAttack | tests/test_engine.py:118-133 | attack 12 against defense 10 takes 2 cells, which become neutral |
| Scenarios.WinnerExamples | tests/test_engine.py:136-152 | elimination of one side, of both sides, and the gold tie-break at the end |

## Left out

- Rendering, GUI event polling and `_handle_gui_events` (autork/gui.py and the hooks in `run`). `_handle_gui_events` always returns true in the engine, so the loop never breaks on it.
- The trace strings: they are diagnostics with no effect on state.
- The `history` list: it is recorded only at reset and never read.
- The concrete strategies and `RandomStrategy`: a strategy is an arbitrary function of what it has observed.
- Engine.Run: strategies here are total functions and cannot fail in `reset`. The code calls `reset` outside any `try` (autork/engine.py:184-185), so a strategy raising there ends `run` with no result at all, and `_safe_step` catches only `Exception` (autork/engine.py:289), so a `BaseException` raised from `step` escapes as well; the promise that a winner is always reported holds only for strategies that raise neither.
- Engine.RunSymmetric: the fairness holds for two independent strategy functions. The code resets and steps player 1's strategy before player 2's (autork/engine.py:184-185, 225-226), so strategies that share state, such as one object passed as both players or two strategies drawing from the global `random` generator, can observe that order.
- Loading settings through pydantic: the settings are a plain record of natural numbers.
- The `int()` coercion of command values: a command is a map from field names to integers. Values that `int()` would reject, and the exception that follows, are not modelled.
- The `scout` value is modelled as an integer that is truthy when non-zero. The code stores that raw value as the intel flag; the model stores its truthiness, which is all that `_prepare_obs` reads.
- The `prices` argument of `_apply_commands`: the code never reads it.
- Settings whose attack or defense curve is constantly zero: the code's buy loops never end for those, so `Config.Valid` excludes them.
- Commands.EmptyCommandIsNoOp: requires that the next attack and defense units are not free. With a zero price the code buys units for nothing even on an empty command.
- The `if sell_atk:` and `if sell_def:` guards: selling zero units changes nothing, so the model always calls the refund.

=== FILE: board.dfy ===
/**
 * The shared board of a match: the simultaneous neutral allocation
 * (`_allocate_neutral`, autork/engine.py:344-378), combat
 * (`_resolve_combat`, autork/engine.py:381-395) and the winner rule
 * (`_check_winner`, autork/engine.py:401-416).
 */
module Board {
  import opened Optional
  import opened Economy
  import opened Numbers

  /** The match-global state: turn counter, neutral pool and both players. */
  datatype Match = Match(turn: nat, neutral: nat, p1: Player, p2: Player)

  /** How a match ends. */
  datatype Outcome = Player1 | Player2 | Draw

  /** All cells on the board: both territories and the neutral pool. */
  function Cells(m: Match): nat {
    m.p1.territory + m.p2.territory + m.neutral
  }

  /** The same match seen with the two players exchanged. */
  function Swap(m: Match): Match {
    m.(p1 := m.p2, p2 := m.p1)
  }

  /** An outcome seen with the two players exchanged. */
  function Mirror(o: Outcome): Outcome {
    match o
    case Player1 => Player2
    case Player2 => Player1
    case Draw => Draw
  }

  /** The cells both bids claim, up to the pool size: they stay neutral. */
  function Contested(a1: nat, a2: nat, pool: nat): nat {
    Min(Min(a1, a2), pool)
  }

  /**
   * `_allocate_neutral`: the contested overlap of the two bids stays neutral;
   * the rest of the pool serves player 1's unique demand, then player 2's.
   * Grants raise territory and `expandedTotal`; both bids are cleared.
   */
  function AllocateNeutral(m: Match): (r: Match)
    ensures Cells(r) == Cells(m)
    ensures r.turn == m.turn
    ensures r.p1 == m.p1.(territory := r.p1.territory, expandedTotal := r.p1.expandedTotal, pendingExpands := 0)
    ensures r.p2 == m.p2.(territory := r.p2.territory, expandedTotal := r.p2.expandedTotal, pendingExpands := 0)
    ensures r.p1.territory >= m.p1.territory && r.p2.territory >= m.p2.territory
    ensures var g1, g2 := r.p1.territory - m.p1.territory, r.p2.territory - m.p2.territory;
            var c := Contested(m.p1.pendingExpands, m.p2.pendingExpands, m.neutral);
            && r.p1.expandedTotal == m.p1.expandedTotal + g1
            && r.p2.expandedTotal == m.p2.expandedTotal + g2
            && r.neutral >= c
            && g1 <= m.p1.pendingExpands - c
            && g2 <= m.p2.pendingExpands - c
            && (g1 < m.p1.pendingExpands - c ==> g1 == m.neutral - c)
            && (g2 < m.p2.pendingExpands - c ==> g1 + g2 == m.neutral - c)
  {
    var a1, a2, n := m.p1.pendingExpands, m.p2.pendingExpands, m.neutral;
    var contested := Contested(a1, a2, n);
    var remaining := n - contested;
    var give1 := Min(a1 - contested, remaining);
    var give2 := Min(a2 - contested, remaining - give1);
    Match(
      m.turn,
      remaining - give1 - give2 + contested,
      m.p1.(territory := m.p1.territory + give1, expandedTotal := m.p1.expandedTotal + give1, pendingExpands := 0),
      m.p2.(territory := m.p2.territory + give2, expandedTotal := m.p2.expandedTotal + give2, pendingExpands := 0))
  }

  /** In any one turn at most one player is granted cells. */
  lemma AtMostOneGrant(m: Match)
    ensures var r := AllocateNeutral(m);
            r.p1.territory == m.p1.territory || r.p2.territory == m.p2.territory
  {
  }

  /**
   * The allocation is symmetric: the player-1-first order never shows.
   * Once the contested overlap is set aside, either the smaller bid is used
   * up or the pool is empty, so at most one player is granted cells.
   */
  lemma AllocationSymmetric(m: Match)
    ensures AllocateNeutral(Swap(m)) == Swap(AllocateNeutral(m))
  {
    var a1, a2, n := m.p1.pendingExpands, m.p2.pendingExpands, m.neutral;
    assert Contested(a2, a1, n) == Contested(a1, a2, n);
  }

  /** Equal bids are entirely contested: no cell is granted and no later price rises. */
  lemma EqualBidsGrantNothing(m: Match)
    requires m.p1.pendingExpands == m.p2.pendingExpands
    ensures var r := AllocateNeutral(m);
            && r.p1.territory == m.p1.territory && r.p2.territory == m.p2.territory
            && r.p1.expandedTotal == m.p1.expandedTotal && r.p2.expandedTotal == m.p2.expandedTotal
            && r.neutral == m.neutral
  {
  }

  /**
   * `_resolve_combat`: each side loses the excess of the enemy's attack over
   * its own defense, capped by its territory; lost cells return to the pool.
   */
  function ResolveCombat(m: Match): (r: Match)
    ensures Cells(r) == Cells(m)
    ensures r.turn == m.turn
    ensures r.p1 == m.p1.(territory := r.p1.territory) && r.p2 == m.p2.(territory := r.p2.territory)
    ensures r.p1.territory <= m.p1.territory && r.p2.territory <= m.p2.territory
    ensures var loss1, loss2 := m.p1.territory - r.p1.territory, m.p2.territory - r.p2.territory;
            && r.neutral == m.neutral + loss1 + loss2
            && (loss1 <= m.p2.attack - m.p1.defense || loss1 == 0)
            && (loss1 < m.p2.attack - m.p1.defense ==> r.p1.territory == 0)
            && (loss2 <= m.p1.attack - m.p2.defense || loss2 == 0)
            && (loss2 < m.p1.attack - m.p2.defense ==> r.p2.territory == 0)
  {
    var dmg12 := if m.p1.attack > m.p2.defense then m.p1.attack - m.p2.defense else 0;
    var dmg21 := if m.p2.attack > m.p1.defense then m.p2.attack - m.p1.defense else 0;
    var loss1 := Min(dmg21, m.p1.territory);
    var loss2 := Min(dmg12, m.p2.territory);
    Match(
      m.turn,
      m.neutral + loss1 + loss2,
      m.p1.(territory := m.p1.territory - loss1),
      m.p2.(territory := m.p2.territory - loss2))
  }

  /** Combat treats both sides alike. */
  lemma CombatSymmetric(m: Match)
    ensures ResolveCombat(Swap(m)) == Swap(ResolveCombat(m))
  {
  }

  /**
   * `_check_winner`: elimination decides first; otherwise, at the end of the
   * match, the richer player wins; otherwise the match goes on.
   */
  function CheckWinner(m: Match, isEnd: bool): (r: Option<Outcome>)
    ensures var t1, t2, g1, g2 := m.p1.territory, m.p2.territory, m.p1.gold, m.p2.gold;
            && (r == Some(Draw) <==> (t1 == 0 && t2 == 0) || (isEnd && t1 > 0 && t2 > 0 && g1 == g2))
            && (r == Some(Player1) <==> (t1 > 0 && t2 == 0) || (isEnd && t1 > 0 && t2 > 0 && g1 > g2))
            && (r == Some(Player2) <==> (t1 == 0 && t2 > 0) || (isEnd && t1 > 0 && t2 > 0 && g1 < g2))
            && (r == None <==> !isEnd && t1 > 0 && t2 > 0)
  {
    if m.p1.territory == 0 && m.p2.territory == 0 then Some(Draw)
    else if m.p1.territory == 0 then Some(Player2)
    else if m.p2.territory == 0 then Some(Player1)
    else if isEnd then
      if m.p1.gold == m.p2.gold then Some(Draw)
      else if m.p1.gold > m.p2.gold then Some(Player1)
      else Some(Player2)
    else None
  }

  /** Exchanging the players exchanges the verdict. */
  lemma WinnerSymmetric(m: Match, isEnd: bool)
    ensures CheckWinner(Swap(m), isEnd) == (match CheckWinner(m, isEnd)
                                           case None => None
                                           case Some(o) => Some(Mirror(o)))
  {
  }
}

=== FILE: commands.dfy ===
/**
 * Command application, `Engine._apply_commands` (autork/engine.py:293-341):
 * one player's command is turned into sales, an expansion bid, scouting and
 * unit purchases, in a fixed order, touching only that player's gold and units.
 */
module Commands {
  import opened Config
  import opened Pricing
  import opened Economy
  import opened Numbers

  /** A raw command as a strategy returns it: field name to value. */
  type Command = map<string, int>

  /** The fields the engine reads; any other key is ignored. */
  const KnownKeys: set<string> :=
    {"sell_attack", "sell_defense", "expand", "scout", "spend_attack", "spend_defense"}

  /** A field's value, zero when it is missing. */
  function Field(cmd: Command, key: string): int {
    if key in cmd then cmd[key] else 0
  }

  /** A numeric field as the engine reads it: missing or negative means zero. */
  function Amount(cmd: Command, key: string): (n: nat)
    ensures n == 0 <==> key !in cmd || cmd[key] <= 0
    ensures n > 0 ==> n == cmd[key]
  {
    var v := Field(cmd, key);
    if v > 0 then v else 0
  }

  /** Whether the command asks to scout (a truthy `scout` field). */
  predicate WantsScout(cmd: Command) {
    Field(cmd, "scout") != 0
  }

  /** Two commands that the engine reads identically. */
  predicate SameRequest(c: Command, d: Command) {
    && Amount(c, "sell_attack") == Amount(d, "sell_attack")
    && Amount(c, "sell_defense") == Amount(d, "sell_defense")
    && Amount(c, "expand") == Amount(d, "expand")
    && WantsScout(c) == WantsScout(d)
    && Amount(c, "spend_attack") == Amount(d, "spend_attack")
    && Amount(c, "spend_defense") == Amount(d, "spend_defense")
  }

  /** What each step of a command did: the facts the engine reports in its trace. */
  datatype Receipt = Receipt(
    soldAttack: nat, attackRefund: nat,
    soldDefense: nat, defenseRefund: nat,
    expandBought: nat,
    scouted: bool,
    attackBudget: int, attackSpent: nat,
    defenseBudget: int, defenseSpent: nat)

  /** A player after (part of) its command, with the receipt of what happened. */
  datatype Applied = Applied(player: Player, receipt: Receipt)

  /** The first three steps of a command: the two sales, then the expansion bid. */
  function SellAndBid(cfg: Settings, p: Player, cmd: Command): (r: Applied)
    ensures var q, rc := r.player, r.receipt;
            && q == p.(gold := q.gold, attack := q.attack, defense := q.defense, pendingExpands := q.pendingExpands)
            && rc.soldAttack == Sellable(Amount(cmd, "sell_attack"), p.attack)
            && rc.attackRefund == rc.soldAttack * (cfg.atkBase / 2)
            && rc.soldDefense == Sellable(Amount(cmd, "sell_defense"), p.defense)
            && rc.defenseRefund == rc.soldDefense * (cfg.defBase / 2)
            && q.attack == p.attack - rc.soldAttack
            && q.defense == p.defense - rc.soldDefense
    ensures var q, rc := r.player, r.receipt;
            var afterSales := p.gold + rc.attackRefund + rc.defenseRefund;
            && q.pendingExpands == rc.expandBought
            && rc.expandBought <= Amount(cmd, "expand")
            && q.gold == afterSales - LinearCost(cfg.expandBase, cfg.expandStep, p.expandedTotal, rc.expandBought)
            && (rc.expandBought < Amount(cmd, "expand") ==> q.gold < ExpandPrice(cfg, p, rc.expandBought))
            && (p.gold >= 0 ==> q.gold >= 0)
    ensures !r.receipt.scouted && r.receipt.attackSpent == 0 && r.receipt.defenseSpent == 0
  {
    // The source skips a sale of zero units; selling zero units changes nothing anyway.
    var s1 := RefundAttack(cfg, p, Amount(cmd, "sell_attack"));
    var s2 := RefundDefense(cfg, s1.player, Amount(cmd, "sell_defense"));
    var e := PayForExpands(cfg, s2.player, Amount(cmd, "expand"));
    Applied(e, Receipt(p.attack - s1.player.attack, s1.refund,
                       s1.player.defense - s2.player.defense, s2.refund,
                       e.pendingExpands, false, 0, 0, 0, 0))
  }

  /** The last three steps of a command: scouting, then the attack and defense spends. */
  function ScoutAndArm(cfg: Settings, a: Applied, cmd: Command): (r: Applied)
    requires Valid(cfg)
    ensures var p, q, rc := a.player, r.player, r.receipt;
            && q == p.(gold := q.gold, attack := q.attack, defense := q.defense)
            && rc == a.receipt.(scouted := rc.scouted, attackBudget := rc.attackBudget,
                                attackSpent := rc.attackSpent, defenseBudget := rc.defenseBudget,
                                defenseSpent := rc.defenseSpent)
    ensures var p, q, rc := a.player, r.player, r.receipt;
            var afterScout := p.gold - (if rc.scouted then cfg.scoutCost else 0);
            && (rc.scouted <==> WantsScout(cmd) && p.gold >= cfg.scoutCost)
            && rc.attackBudget == Min(Amount(cmd, "spend_attack"), afterScout)
            && rc.defenseBudget == Min(Amount(cmd, "spend_defense"), afterScout - rc.attackSpent)
            && q.gold == afterScout - rc.attackSpent - rc.defenseSpent
            && (p.gold >= 0 ==> q.gold >= 0)
    ensures var p, q, rc := a.player, r.player, r.receipt;
            && q.attack >= p.attack && q.defense >= p.defense
            && rc.attackSpent == LinearCost(cfg.atkBase, cfg.atkK, p.attack, q.attack - p.attack)
            && rc.defenseSpent == LinearCost(cfg.defBase, cfg.defK, p.defense, q.defense - p.defense)
            && (rc.attackSpent == 0 || rc.attackSpent <= rc.attackBudget)
            && (rc.defenseSpent == 0 || rc.defenseSpent <= rc.defenseBudget)
            && rc.attackBudget - rc.attackSpent < LinearPrice(cfg.atkBase, cfg.atkK, q.attack)
            && rc.defenseBudget - rc.defenseSpent < LinearPrice(cfg.defBase, cfg.defK, q.defense)
  {
    var p := a.player;
    var scouted := WantsScout(cmd) && p.gold >= cfg.scoutCost;
    var sc := if scouted then p.(gold := p.gold - cfg.scoutCost) else p;
    var attackBudget := Min(Amount(cmd, "spend_attack"), sc.gold);
    var b := BuyAttack(cfg, sc, attackBudget);
    var defenseBudget := Min(Amount(cmd, "spend_defense"), b.player.gold);
    var d := BuyDefense(cfg, b.player, defenseBudget);
    Applied(d.player, a.receipt.(scouted := scouted, attackBudget := attackBudget, attackSpent := b.spent,
                                 defenseBudget := defenseBudget, defenseSpent := d.spent))
  }

  /**
   * Apply one command: sell attack, sell defense, pay for the expansion bid,
   * scout, spend on attack, spend on defense. Its gold ledger and unit counts
   * are stated by the three lemmas that follow.
   */
  function ApplyCommands(cfg: Settings, p: Player, cmd: Command): (r: Applied)
    requires Valid(cfg)
    ensures var q := r.player;
            && q.territory == p.territory
            && q.expandedTotal == p.expandedTotal
            && q.hasEnemyIntel == p.hasEnemyIntel
    ensures r.player.pendingExpands == r.receipt.expandBought <= Amount(cmd, "expand")
    ensures p.gold >= 0 ==> r.player.gold >= 0
  {
    ScoutAndArm(cfg, SellAndBid(cfg, p, cmd), cmd)
  }

  /** The sales: at most the units held are sold, each refunded at half its base price. */
  lemma ApplyCommandsSales(cfg: Settings, p: Player, cmd: Command)
    requires Valid(cfg)
    ensures var rc := ApplyCommands(cfg, p, cmd).receipt;
            && rc.soldAttack == Sellable(Amount(cmd, "sell_attack"), p.attack)
            && rc.attackRefund == rc.soldAttack * (cfg.atkBase / 2)
            && rc.soldDefense == Sellable(Amount(cmd, "sell_defense"), p.defense)
            && rc.defenseRefund == rc.soldDefense * (cfg.defBase / 2)
  {
    var a := SellAndBid(cfg, p, cmd);
    var rc := ScoutAndArm(cfg, a, cmd).receipt;
    assert rc.soldAttack == a.receipt.soldAttack && rc.attackRefund == a.receipt.attackRefund;
    assert rc.soldDefense == a.receipt.soldDefense && rc.defenseRefund == a.receipt.defenseRefund;
  }

  /**
   * The gold ledger: refunds in, the expansion bid at running prices out, the
   * scout fee only when affordable, then each spend clamped to the gold left.
   */
  lemma ApplyCommandsLedger(cfg: Settings, p: Player, cmd: Command)
    requires Valid(cfg)
    ensures var r := ApplyCommands(cfg, p, cmd);
            var q, rc := r.player, r.receipt;
            var beforeScout := p.gold + rc.attackRefund + rc.defenseRefund
                               - LinearCost(cfg.expandBase, cfg.expandStep, p.expandedTotal, rc.expandBought);
            var afterScout := beforeScout - (if rc.scouted then cfg.scoutCost else 0);
            && (rc.expandBought < Amount(cmd, "expand") ==>
                  beforeScout < ExpandPrice(cfg, p, rc.expandBought))
            && (rc.scouted <==> WantsScout(cmd) && beforeScout >= cfg.scoutCost)
            && rc.attackBudget == Min(Amount(cmd, "spend_attack"), afterScout)
            && rc.defenseBudget == Min(Amount(cmd, "spend_defense"), afterScout - rc.attackSpent)
            && q.gold == afterScout - rc.attackSpent - rc.defenseSpent
  {
    var a := SellAndBid(cfg, p, cmd);
    var r := ScoutAndArm(cfg, a, cmd);
    assert r.receipt.attackRefund == a.receipt.attackRefund;
    assert r.receipt.defenseRefund == a.receipt.defenseRefund;
    assert r.receipt.expandBought == a.receipt.expandBought;
    assert ExpandPrice(cfg, p, a.receipt.expandBought) == ExpandPrice(cfg, a.player, a.receipt.expandBought);
  }

  /**
   * The purchases: the units bought on top of those kept after the sales cost
   * exactly their running prices, stay within each budget, and stop only when
   * the next unit is dearer than the budget left.
   */
  lemma ApplyCommandsPurchases(cfg: Settings, p: Player, cmd: Command)
    requires Valid(cfg)
    ensures var r := ApplyCommands(cfg, p, cmd);
            var q, rc := r.player, r.receipt;
            var keptAttack := p.attack - rc.soldAttack;
            var keptDefense := p.defense - rc.soldDefense;
            && q.attack >= keptAttack && q.defense >= keptDefense
            && rc.attackSpent == LinearCost(cfg.atkBase, cfg.atkK, keptAttack, q.attack - keptAttack)
            && rc.defenseSpent == LinearCost(cfg.defBase, cfg.defK, keptDefense, q.defense - keptDefense)
            && (rc.attackSpent == 0 || rc.attackSpent <= rc.attackBudget)
            && (rc.defenseSpent == 0 || rc.defenseSpent <= rc.defenseBudget)
            && rc.attackBudget - rc.attackSpent < LinearPrice(cfg.atkBase, cfg.atkK, q.attack)
            && rc.defenseBudget - rc.defenseSpent < LinearPrice(cfg.defBase, cfg.defK, q.defense)
  {
    var a := SellAndBid(cfg, p, cmd);
    var r := ScoutAndArm(cfg, a, cmd);
    assert r.receipt.soldAttack == a.receipt.soldAttack && r.receipt.soldDefense == a.receipt.soldDefense;
    assert a.player.attack == p.attack - a.receipt.soldAttack;
    assert a.player.defense == p.defense - a.receipt.soldDefense;
  }

  /** Only what the engine reads of a command matters. */
  lemma SameRequestSameEffect(cfg: Settings, p: Player, c: Command, d: Command)
    requires Valid(cfg)
    requires SameRequest(c, d)
    ensures ApplyCommands(cfg, p, c) == ApplyCommands(cfg, p, d)
  {
    assert SellAndBid(cfg, p, c) == SellAndBid(cfg, p, d);
  }

  /** A key outside the recognised set has no effect, whatever its value. */
  lemma UnknownKeyIgnored(cfg: Settings, p: Player, cmd: Command, key: string, v: int)
    requires Valid(cfg)
    requires key !in KnownKeys
    ensures ApplyCommands(cfg, p, cmd[key := v]) == ApplyCommands(cfg, p, cmd)
  {
    forall k | k in KnownKeys
      ensures Field(cmd[key := v], k) == Field(cmd, k)
    {
      assert k != key;
    }
    SameRequestSameEffect(cfg, p, cmd[key := v], cmd);
  }

  /** A negative amount acts exactly like a missing field. */
  lemma NegativeActsAsMissing(cfg: Settings, p: Player, cmd: Command, key: string, v: int)
    requires Valid(cfg)
    requires key in KnownKeys - {"scout"} && v <= 0
    ensures ApplyCommands(cfg, p, cmd[key := v]) == ApplyCommands(cfg, p, cmd - {key})
  {
    forall k | k in KnownKeys
      ensures Amount(cmd[key := v], k) == Amount(cmd - {key}, k)
      ensures Field(cmd[key := v], "scout") == Field(cmd - {key}, "scout")
    {
    }
    SameRequestSameEffect(cfg, p, cmd[key := v], cmd - {key});
  }

  /**
   * The empty command, which a failing strategy stands for, changes nothing
   * but clears the bid, provided no unit is free at the current count.
   */
  lemma EmptyCommandIsNoOp(cfg: Settings, p: Player)
    requires Valid(cfg) && p.gold >= 0
    requires AttackPrice(cfg, p) > 0 && DefensePrice(cfg, p) > 0
    ensures ApplyCommands(cfg, p, map[]).player == p.(pendingExpands := 0)
  {
  }
}

=== FILE: config.dfy ===
/** The flat set of tunable constants of a match (autork/config.py). */
module Config {

  /** Every constant of the game, each a natural number. */
  datatype Settings = Settings(
    maxTurns: nat,
    startGold: nat,
    startTerritory: nat,
    neutralTerritory: nat,
    startAttack: nat,
    startDefense: nat,
    goldPerLand: nat,
    expandBase: nat,
    expandStep: nat,
    atkBase: nat,
    atkK: nat,
    defBase: nat,
    defK: nat,
    maintAtk: nat,
    maintDef: nat,
    scoutCost: nat)

  /** The default values shipped with the game. */
  function Defaults(): (s: Settings)
    ensures Valid(s)
  {
    Settings(
      maxTurns := 200, startGold := 50, startTerritory := 30, neutralTerritory := 40,
      startAttack := 0, startDefense := 0, goldPerLand := 1,
      expandBase := 10, expandStep := 1,
      atkBase := 20, atkK := 1, defBase := 9, defK := 3,
      maintAtk := 4, maintDef := 1, scoutCost := 20)
  }

  /** A greedy unit purchase halts only when its price curve is not constantly zero. */
  predicate CurveRises(base: nat, slope: nat) {
    base > 0 || slope > 0
  }

  /** Settings under which both unit purchase loops terminate. */
  predicate Valid(s: Settings) {
    CurveRises(s.atkBase, s.atkK) && CurveRises(s.defBase, s.defK)
  }
}

=== FILE: economy.dfy ===
/**
 * The per-player economy, `PlayerState` (autork/engine.py:29-125): income,
 * upkeep with forced demobilisation, expansion payments and unit trade.
 */
module Economy {
  import opened Config
  import opened Pricing

  /**
   * One side of the duel. `expandedTotal` counts cells ever granted and drives
   * the expansion price; `pendingExpands` is the number of cells paid for this
   * turn; `hasEnemyIntel` gates the enemy's private fields in observations.
   */
  datatype Player = Player(
    gold: int,
    territory: nat,
    attack: nat,
    defense: nat,
    expandedTotal: nat,
    pendingExpands: nat,
    hasEnemyIntel: bool)

  /** A player as created at match reset. */
  function NewPlayer(cfg: Settings): (p: Player)
    ensures p.gold == cfg.startGold && p.territory == cfg.startTerritory
    ensures p.attack == cfg.startAttack && p.defense == cfg.startDefense
    ensures p.expandedTotal == 0 && p.pendingExpands == 0 && !p.hasEnemyIntel
  {
    Player(cfg.startGold, cfg.startTerritory, cfg.startAttack, cfg.startDefense, 0, 0, false)
  }

  /** Gold yielded by the land a player holds. */
  function Income(cfg: Settings, p: Player): (g: nat)
    ensures g == 0 <==> p.territory == 0 || cfg.goldPerLand == 0
    ensures cfg.goldPerLand > 0 ==> g >= p.territory
  {
    p.territory * cfg.goldPerLand
  }

  /** Gold owed each turn for the units a player holds. */
  function UpkeepCost(cfg: Settings, p: Player): (c: nat)
    ensures c == 0 <==> (p.attack == 0 || cfg.maintAtk == 0) && (p.defense == 0 || cfg.maintDef == 0)
    ensures c >= p.attack * cfg.maintAtk && c >= p.defense * cfg.maintDef
  {
    p.attack * cfg.maintAtk + p.defense * cfg.maintDef
  }

  /** `r` differs from `p` at most in gold and unit counts. */
  predicate SameButForces(p: Player, r: Player) {
    r == p.(gold := r.gold, attack := r.attack, defense := r.defense)
  }

  /** Maintenance given back by the units `p` held and `r` no longer holds. */
  function Freed(cfg: Settings, p: Player, r: Player): int {
    (p.attack - r.attack) * cfg.maintAtk + (p.defense - r.defense) * cfg.maintDef
  }

  /** Maintenance of the last unit disbanded on the way from `p` to `r`. */
  function LastRate(cfg: Settings, p: Player, r: Player): nat {
    if r.defense < p.defense then cfg.maintDef else cfg.maintAtk
  }

  /**
   * The demobilisation loop: while gold is negative and units remain,
   * disband one attack unit, or a defense unit once no attack unit is left,
   * crediting back that unit's maintenance.
   */
  function Demobilize(cfg: Settings, p: Player): (r: Player)
    ensures SameButForces(p, r)
    ensures r.attack <= p.attack && r.defense <= p.defense
    ensures r.defense < p.defense ==> r.attack == 0
    ensures r.gold == p.gold + Freed(cfg, p, r)
    ensures r.gold < 0 ==> r.attack == 0 && r.defense == 0
    ensures p.gold >= 0 ==> r == p
    ensures r.attack < p.attack || r.defense < p.defense ==> r.gold - LastRate(cfg, p, r) < 0
    decreases p.attack + p.defense
  {
    if p.gold < 0 && (p.attack > 0 || p.defense > 0) then
      if p.attack > 0 then
        var q := p.(attack := p.attack - 1, gold := p.gold + cfg.maintAtk);
        var r := Demobilize(cfg, q);
        MulSucc(q.attack - r.attack, cfg.maintAtk);
        r
      else
        var q := p.(defense := p.defense - 1, gold := p.gold + cfg.maintDef);
        var r := Demobilize(cfg, q);
        MulSucc(q.defense - r.defense, cfg.maintDef);
        r
    else
      p
  }

  /** One more unit frees one more maintenance. */
  lemma MulSucc(k: nat, rate: nat)
    ensures (k + 1) * rate == k * rate + rate
  {
  }

  /** Scaling a smaller price by the same count keeps it smaller. */
  lemma MulMonotone(n: nat, a: nat, b: nat)
    requires a <= b
    ensures n * a <= n * b
  {
  }

  /**
   * `apply_upkeep`: charge the upkeep; on a deficit, demobilise attack units
   * first, then defense units, until covered; finally clamp gold at zero.
   */
  function ApplyUpkeep(cfg: Settings, p: Player): (r: Player)
    ensures r.gold >= 0
    ensures SameButForces(p, r)
    ensures r.attack <= p.attack && r.defense <= p.defense
    ensures r.defense < p.defense ==> r.attack == 0
    ensures p.gold >= UpkeepCost(cfg, p) ==> r == p.(gold := p.gold - UpkeepCost(cfg, p))
    ensures var covered := p.gold - UpkeepCost(cfg, p) + Freed(cfg, p, r);
            && r.gold == (if covered < 0 then 0 else covered)
            && (covered < 0 ==> r.attack == 0 && r.defense == 0)
            && (r.attack < p.attack || r.defense < p.defense ==> covered - LastRate(cfg, p, r) < 0)
  {
    var charged := p.(gold := p.gold - UpkeepCost(cfg, p));
    if charged.gold >= 0 then
      charged
    else
      var d := Demobilize(cfg, charged);
      d.(gold := if d.gold < 0 then 0 else d.gold)
  }

  /**
   * Price of the next cell, `extra` cells into the current turn's batch: what
   * one more cell adds to the cost of the batch.
   */
  function ExpandPrice(cfg: Settings, p: Player, extra: nat): (price: nat)
    ensures price >= cfg.expandBase
    ensures LinearCost(cfg.expandBase, cfg.expandStep, p.expandedTotal, extra) + price
         == LinearCost(cfg.expandBase, cfg.expandStep, p.expandedTotal, extra + 1)
  {
    LinearCostSnoc(cfg.expandBase, cfg.expandStep, p.expandedTotal, extra);
    LinearPrice(cfg.expandBase, cfg.expandStep, p.expandedTotal + extra)
  }

  /** Expansion cells paid for, and the gold left. */
  datatype Paid = Paid(bought: nat, gold: int)

  /** The payment loop of `pay_for_expands`, from `bought` cells already paid. */
  function PayLoop(cfg: Settings, total: nat, gold: int, wanted: int, bought: nat): (r: Paid)
    ensures r.bought >= bought
    ensures r.bought == bought || r.bought <= wanted
    ensures r.gold == gold - LinearCost(cfg.expandBase, cfg.expandStep, total + bought, r.bought - bought)
    ensures r.bought < wanted ==> r.gold < LinearPrice(cfg.expandBase, cfg.expandStep, total + r.bought)
    ensures gold >= 0 ==> r.gold >= 0
    decreases wanted - bought
  {
    if bought < wanted then
      var cost := LinearPrice(cfg.expandBase, cfg.expandStep, total + bought);
      if gold < cost then Paid(bought, gold)
      else PayLoop(cfg, total, gold - cost, wanted, bought + 1)
    else
      Paid(bought, gold)
  }

  /**
   * `pay_for_expands`: pay for up to `wanted` cells at the expansion curve,
   * whether or not they are granted later, and record the bid.
   */
  function PayForExpands(cfg: Settings, p: Player, wanted: int): (r: Player)
    ensures r == p.(gold := r.gold, pendingExpands := r.pendingExpands)
    ensures r.pendingExpands == 0 || r.pendingExpands <= wanted
    ensures r.gold == p.gold - LinearCost(cfg.expandBase, cfg.expandStep, p.expandedTotal, r.pendingExpands)
    ensures r.pendingExpands < wanted ==> r.gold < ExpandPrice(cfg, p, r.pendingExpands)
    ensures p.gold >= 0 ==> r.gold >= 0
  {
    var paid := PayLoop(cfg, p.expandedTotal, p.gold, wanted, 0);
    p.(gold := paid.gold, pendingExpands := paid.bought)
  }

  /** The expansion bid is the largest affordable batch of at most `wanted` cells. */
  lemma PayForExpandsIsMaximal(cfg: Settings, p: Player, wanted: nat, n: nat)
    requires p.gold >= 0
    ensures n <= wanted && LinearCost(cfg.expandBase, cfg.expandStep, p.expandedTotal, n) <= p.gold
        <==> n <= PayForExpands(cfg, p, wanted).pendingExpands
  {
    var k := PayForExpands(cfg, p, wanted).pendingExpands;
    if n <= k {
      LinearCostMonotone(cfg.expandBase, cfg.expandStep, p.expandedTotal, n, k);
    } else if k < wanted {
      LinearCostSnoc(cfg.expandBase, cfg.expandStep, p.expandedTotal, k);
      LinearCostMonotone(cfg.expandBase, cfg.expandStep, p.expandedTotal, k + 1, n);
    }
  }

  /** Price of the next attack unit at the current attack count: the cost of buying one. */
  function AttackPrice(cfg: Settings, p: Player): (price: nat)
    ensures price >= cfg.atkBase
    ensures price == LinearCost(cfg.atkBase, cfg.atkK, p.attack, 1)
  {
    LinearPrice(cfg.atkBase, cfg.atkK, p.attack)
  }

  /** Price of the next defense unit at the current defense count: the cost of buying one. */
  function DefensePrice(cfg: Settings, p: Player): (price: nat)
    ensures price >= cfg.defBase
    ensures price == LinearCost(cfg.defBase, cfg.defK, p.defense, 1)
  {
    LinearPrice(cfg.defBase, cfg.defK, p.defense)
  }

  /** A player after a unit purchase, and the gold that purchase cost. */
  datatype Bought = Bought(player: Player, spent: nat)

  /** `buy_attack`: buy attack units greedily within `limit` gold. */
  function BuyAttack(cfg: Settings, p: Player, limit: int): (r: Bought)
    requires CurveRises(cfg.atkBase, cfg.atkK) || limit < 0
    ensures r.player == p.(gold := p.gold - r.spent, attack := r.player.attack)
    ensures r.player.attack >= p.attack
    ensures r.spent == LinearCost(cfg.atkBase, cfg.atkK, p.attack, r.player.attack - p.attack)
    ensures r.spent == 0 || r.spent <= limit
    ensures limit - r.spent < AttackPrice(cfg, r.player)
  {
    var g := Greedy(cfg.atkBase, cfg.atkK, p.attack, limit);
    Bought(p.(gold := p.gold - g.spent, attack := p.attack + g.units), g.spent)
  }

  /** `buy_defense`: buy defense units greedily within `limit` gold. */
  function BuyDefense(cfg: Settings, p: Player, limit: int): (r: Bought)
    requires CurveRises(cfg.defBase, cfg.defK) || limit < 0
    ensures r.player == p.(gold := p.gold - r.spent, defense := r.player.defense)
    ensures r.player.defense >= p.defense
    ensures r.spent == LinearCost(cfg.defBase, cfg.defK, p.defense, r.player.defense - p.defense)
    ensures r.spent == 0 || r.spent <= limit
    ensures limit - r.spent < DefensePrice(cfg, r.player)
  {
    var g := Greedy(cfg.defBase, cfg.defK, p.defense, limit);
    Bought(p.(gold := p.gold - g.spent, defense := p.defense + g.units), g.spent)
  }

  /** A player after selling units, and the gold refunded. */
  datatype Sale = Sale(player: Player, refund: nat)

  /** Smaller of an integer request and a held count, never below zero. */
  function Sellable(units: int, held: nat): nat {
    if units <= 0 then 0 else if units < held then units else held
  }

  /** `_refund_attack`: sell back up to `units` attack units at half the base price each. */
  function RefundAttack(cfg: Settings, p: Player, units: int): (r: Sale)
    ensures r.player == p.(gold := p.gold + r.refund, attack := r.player.attack)
    ensures r.player.attack <= p.attack
    ensures var sold := p.attack - r.player.attack;
            && (units <= 0 ==> sold == 0)
            && (units > 0 ==> sold <= units && (sold < units ==> r.player.attack == 0))
            && r.refund == sold * (cfg.atkBase / 2)
  {
    var sold := Sellable(units, p.attack);
    var refund := sold * (cfg.atkBase / 2);
    Sale(p.(attack := p.attack - sold, gold := p.gold + refund), refund)
  }

  /** `_refund_defense`: sell back up to `units` defense units at half the base price each. */
  function RefundDefense(cfg: Settings, p: Player, units: int): (r: Sale)
    ensures r.player == p.(gold := p.gold + r.refund, defense := r.player.defense)
    ensures r.player.defense <= p.defense
    ensures var sold := p.defense - r.player.defense;
            && (units <= 0 ==> sold == 0)
            && (units > 0 ==> sold <= units && (sold < units ==> r.player.defense == 0))
            && r.refund == sold * (cfg.defBase / 2)
  {
    var sold := Sellable(units, p.defense);
    var refund := sold * (cfg.defBase / 2);
    Sale(p.(defense := p.defense - sold, gold := p.gold + refund), refund)
  }

  /** Inside one batch each further cell costs more, when the step is positive. */
  lemma ExpandPriceIncreasing(cfg: Settings, p: Player, i: nat, j: nat)
    requires cfg.expandStep > 0 && i < j
    ensures ExpandPrice(cfg, p, i) < ExpandPrice(cfg, p, j)
  {
    LinearPriceIncreasing(cfg.expandBase, cfg.expandStep, p.expandedTotal + i, p.expandedTotal + j);
  }

  /** The refund for an attack sale depends on the number sold, not on how many were held. */
  lemma RefundAttackIgnoresCount(cfg: Settings, p: Player, q: Player, units: nat)
    requires units <= p.attack && units <= q.attack
    ensures RefundAttack(cfg, p, units).refund == RefundAttack(cfg, q, units).refund
  {
  }

  /** The refund for a defense sale depends on the number sold, not on how many were held. */
  lemma RefundDefenseIgnoresCount(cfg: Settings, p: Player, q: Player, units: nat)
    requires units <= p.defense && units <= q.defense
    ensures RefundDefense(cfg, p, units).refund == RefundDefense(cfg, q, units).refund
  {
  }

  /** Buying attack units and selling them straight back never gains gold. */
  lemma {:induction false} AttackResaleLoses(cfg: Settings, p: Player, limit: int)
    requires CurveRises(cfg.atkBase, cfg.atkK)
    ensures var b := BuyAttack(cfg, p, limit);
            var s := RefundAttack(cfg, b.player, b.player.attack - p.attack);
            s.player.attack == p.attack && s.player.gold <= p.gold
  {
    var b := BuyAttack(cfg, p, limit);
    var n := b.player.attack - p.attack;
    LinearCostAtLeastBase(cfg.atkBase, cfg.atkK, p.attack, n);
    MulMonotone(n, cfg.atkBase / 2, cfg.atkBase);
  }

  /** Buying defense units and selling them straight back never gains gold. */
  lemma {:induction false} DefenseResaleLoses(cfg: Settings, p: Player, limit: int)
    requires CurveRises(cfg.defBase, cfg.defK)
    ensures var b := BuyDefense(cfg, p, limit);
            var s := RefundDefense(cfg, b.player, b.player.defense - p.defense);
            s.player.defense == p.defense && s.player.gold <= p.gold
  {
    var b := BuyDefense(cfg, p, limit);
    var n := b.player.defense - p.defense;
    LinearCostAtLeastBase(cfg.defBase, cfg.defK, p.defense, n);
    MulMonotone(n, cfg.defBase / 2, cfg.defBase);
  }
}

=== FILE: engine.dfy ===
/**
 * The turn orchestrator, `Engine` (autork/engine.py:129-291): observations
 * with intel gating, one turn of economy, commands, allocation and combat,
 * and the bounded match loop. A strategy is any function from the
 * observations it has been shown to a command, or `None` when it fails.
 */
module Engine {
  import opened Optional
  import opened Config
  import opened Economy
  import opened Commands
  import opened Board

  /** A player's public figures, as shown to itself and in the final result. */
  datatype Standing = Standing(gold: int, territory: nat, attack: nat, defense: nat)

  /** The enemy's private figures, shown only with intel. */
  datatype Intel = Intel(gold: int, attack: nat, defense: nat)

  /** What a player sees of its enemy. */
  datatype EnemyView = EnemyView(territory: nat, intel: Option<Intel>)

  /** The price list shown to a player. */
  datatype Prices = Prices(expandNext: nat, buyAttack: nat, buyDefense: nat, scout: nat)

  /** One player's observation of the match. */
  datatype Observation = Observation(
    turn: nat,
    my: Standing,
    enemy: EnemyView,
    neutral: nat,
    prices: Prices,
    goldLimit: int)

  /** A strategy: the observations shown so far to a command, `None` when `step` fails. */
  type Strategy = seq<Observation> -> Option<Command>

  /** A match together with the observations each strategy has been shown. */
  datatype Game = Game(m: Match, seen1: seq<Observation>, seen2: seq<Observation>)

  /** The final result returned by `run`. */
  datatype MatchResult = MatchResult(winner: Option<Outcome>, turns: nat, neutral: nat, p1: Standing, p2: Standing)

  /** A player's gold, territory and units, as `_prepare_obs` and `_result` report them. */
  function StandingOf(p: Player): Standing {
    Standing(p.gold, p.territory, p.attack, p.defense)
  }

  /**
   * `_prepare_obs`: a player's own figures, the enemy's territory, and the
   * enemy's gold, attack and defense only when the player holds intel.
   */
  function PrepareObs(cfg: Settings, m: Match, me: Player, enemy: Player): (o: Observation)
    ensures o.enemy.territory == enemy.territory
    ensures o.enemy.intel.Some? <==> me.hasEnemyIntel
    ensures o.enemy.intel.Some? ==> o.enemy.intel.value == Intel(enemy.gold, enemy.attack, enemy.defense)
    ensures o.my == StandingOf(me) && o.goldLimit == me.gold
    ensures o.prices.expandNext == ExpandPrice(cfg, me, 0)
    ensures o.prices.buyAttack == AttackPrice(cfg, me) && o.prices.buyDefense == DefensePrice(cfg, me)
    ensures o.prices.scout == cfg.scoutCost
    ensures o.turn == m.turn && o.neutral == m.neutral
  {
    Observation(
      m.turn,
      StandingOf(me),
      EnemyView(enemy.territory,
                if me.hasEnemyIntel then Some(Intel(enemy.gold, enemy.attack, enemy.defense)) else None),
      m.neutral,
      Prices(ExpandPrice(cfg, me, 0), AttackPrice(cfg, me), DefensePrice(cfg, me), cfg.scoutCost),
      me.gold)
  }

  /** Without intel the enemy's gold, attack and defense do not reach the observation. */
  lemma NoIntelHidesEnemy(cfg: Settings, m: Match, me: Player, e1: Player, e2: Player)
    requires !me.hasEnemyIntel && e1.territory == e2.territory
    ensures PrepareObs(cfg, m, me, e1) == PrepareObs(cfg, m, me, e2)
  {
  }

  /** With intel, different private enemy figures give different observations. */
  lemma IntelRevealsEnemy(cfg: Settings, m: Match, me: Player, e1: Player, e2: Player)
    requires me.hasEnemyIntel
    requires e1.gold != e2.gold || e1.attack != e2.attack || e1.defense != e2.defense
    ensures PrepareObs(cfg, m, me, e1) != PrepareObs(cfg, m, me, e2)
  {
    assert PrepareObs(cfg, m, me, e1).enemy.intel.value != PrepareObs(cfg, m, me, e2).enemy.intel.value;
  }

  /** `_safe_step`: a failing strategy issues the empty command. */
  function SafeStep(result: Option<Command>): (cmd: Command)
    ensures result.None? ==> cmd == map[]
    ensures result.Some? ==> cmd == result.value
  {
    match result
    case Some(c) => c
    case None => map[]
  }

  /** The economy step of a turn for one player: income, then upkeep. */
  function EarnAndUpkeep(cfg: Settings, p: Player): (r: Player)
    ensures r.gold >= 0
    ensures p.gold + Income(cfg, p) >= UpkeepCost(cfg, p) ==>
              r == p.(gold := p.gold + Income(cfg, p) - UpkeepCost(cfg, p))
    ensures r.attack <= p.attack && r.defense <= p.defense
    ensures r.defense < p.defense ==> r.attack == 0
    ensures var covered := p.gold + Income(cfg, p) - UpkeepCost(cfg, p) + Freed(cfg, p, r);
            && r.gold == (if covered < 0 then 0 else covered)
            && (r.attack < p.attack || r.defense < p.defense ==> covered - LastRate(cfg, p, r) < 0)
            && (covered < 0 ==> r.attack == 0 && r.defense == 0)
    ensures r.territory == p.territory && r.expandedTotal == p.expandedTotal
    ensures r.pendingExpands == p.pendingExpands && r.hasEnemyIntel == p.hasEnemyIntel
  {
    ApplyUpkeep(cfg, p.(gold := p.gold + Income(cfg, p)))
  }

  /** The cell count every match keeps: both starting territories and the pool. */
  function TotalCells(cfg: Settings): nat {
    2 * cfg.startTerritory + cfg.neutralTerritory
  }

  /** What holds of every reachable match state. */
  predicate Inv(cfg: Settings, m: Match) {
    m.p1.gold >= 0 && m.p2.gold >= 0 && Cells(m) == TotalCells(cfg)
  }

  /**
   * The second half of `_play_turn`: apply both commands, allocate the
   * neutral pool, fight, then set each intel flag from its own command's
   * `scout` field, whether or not the scout was paid for.
   */
  function Resolve(cfg: Settings, m: Match, c1: Command, c2: Command): (r: Match)
    requires Valid(cfg)
    ensures Cells(r) == Cells(m) && r.turn == m.turn
    ensures m.p1.gold >= 0 && m.p2.gold >= 0 ==> r.p1.gold >= 0 && r.p2.gold >= 0
    ensures r.p1.hasEnemyIntel == WantsScout(c1) && r.p2.hasEnemyIntel == WantsScout(c2)
    ensures r.p1.pendingExpands == 0 && r.p2.pendingExpands == 0
    ensures r.p1.expandedTotal >= m.p1.expandedTotal && r.p2.expandedTotal >= m.p2.expandedTotal
  {
    var q1 := ApplyCommands(cfg, m.p1, c1).player;
    var q2 := ApplyCommands(cfg, m.p2, c2).player;
    var granted := AllocateNeutral(m.(p1 := q1, p2 := q2));
    var fought := ResolveCombat(granted);
    fought.(p1 := fought.p1.(hasEnemyIntel := WantsScout(c1)),
            p2 := fought.p2.(hasEnemyIntel := WantsScout(c2)))
  }

  /**
   * A scout request the player cannot afford is not charged, yet the intel
   * flag is still set from the command.
   */
  lemma UnpaidScoutStillGrantsIntel(cfg: Settings, m: Match, c2: Command)
    requires Valid(cfg) && m.p1.gold < cfg.scoutCost
    ensures var c1: Command := map["scout" := 1];
            && !ApplyCommands(cfg, m.p1, c1).receipt.scouted
            && Resolve(cfg, m, c1, c2).p1.hasEnemyIntel
  {
    var c1: Command := map["scout" := 1];
    assert c1.Keys == {"scout"};
    var rc := ApplyCommands(cfg, m.p1, c1).receipt;
    assert Amount(c1, "sell_attack") == 0 && Amount(c1, "sell_defense") == 0 && Amount(c1, "expand") == 0;
    assert rc.expandBought == 0;
  }

  /**
   * `_play_turn`: both economies, both observations, one `step` call per
   * strategy, then the resolution of both commands together.
   */
  function PlayTurn(cfg: Settings, g: Game, s1: Strategy, s2: Strategy): (r: Game)
    requires Valid(cfg)
    ensures Inv(cfg, g.m) ==> Inv(cfg, r.m)
    ensures r.m.turn == g.m.turn
    ensures |r.seen1| == |g.seen1| + 1 && |r.seen2| == |g.seen2| + 1
    ensures r.seen1[..|g.seen1|] == g.seen1 && r.seen2[..|g.seen2|] == g.seen2
    ensures var shown1, shown2 := r.seen1[|g.seen1|], r.seen2[|g.seen2|];
            && shown1.my.gold == EarnAndUpkeep(cfg, g.m.p1).gold
            && shown2.my.gold == EarnAndUpkeep(cfg, g.m.p2).gold
            && (shown1.enemy.intel.Some? <==> g.m.p1.hasEnemyIntel)
            && (shown2.enemy.intel.Some? <==> g.m.p2.hasEnemyIntel)
    ensures r.m.p1.hasEnemyIntel == WantsScout(SafeStep(s1(r.seen1)))
    ensures r.m.p2.hasEnemyIntel == WantsScout(SafeStep(s2(r.seen2)))
  {
    var m := g.m.(p1 := EarnAndUpkeep(cfg, g.m.p1), p2 := EarnAndUpkeep(cfg, g.m.p2));
    var o1 := PrepareObs(cfg, m, m.p1, m.p2);
    var o2 := PrepareObs(cfg, m, m.p2, m.p1);
    var c1 := SafeStep(s1(g.seen1 + [o1]));
    var c2 := SafeStep(s2(g.seen2 + [o2]));
    assert Cells(m) == Cells(g.m);
    assert (g.seen1 + [o1])[|g.seen1|] == o1 && (g.seen2 + [o2])[|g.seen2|] == o2;
    Game(Resolve(cfg, m, c1, c2), g.seen1 + [o1], g.seen2 + [o2])
  }

  /** The turn counter moved on by one, as `run` does before each turn. */
  function Advance(g: Game): Game {
    g.(m := g.m.(turn := g.m.turn + 1))
  }

  /** The match loop: play turns until one is decided or the turn budget is spent. */
  function RunFrom(cfg: Settings, g: Game, s1: Strategy, s2: Strategy): (r: Game)
    requires Valid(cfg) && g.m.turn <= cfg.maxTurns
    ensures g.m.turn <= r.m.turn <= cfg.maxTurns
    ensures Inv(cfg, g.m) ==> Inv(cfg, r.m)
    ensures g.m.turn < cfg.maxTurns ==> r.m.turn == cfg.maxTurns || CheckWinner(r.m, false).Some?
    ensures g.m.turn == cfg.maxTurns ==> r == g
    decreases cfg.maxTurns - g.m.turn, 1
  {
    if g.m.turn < cfg.maxTurns then
      Continue(cfg, PlayTurn(cfg, Advance(g), s1, s2), s1, s2)
    else
      g
  }

  /** After a turn: stop if it decided the match, otherwise keep playing. */
  function Continue(cfg: Settings, next: Game, s1: Strategy, s2: Strategy): (r: Game)
    requires Valid(cfg) && 0 < next.m.turn <= cfg.maxTurns
    ensures next.m.turn <= r.m.turn <= cfg.maxTurns
    ensures Inv(cfg, next.m) ==> Inv(cfg, r.m)
    ensures r.m.turn == cfg.maxTurns || CheckWinner(r.m, false).Some?
    ensures CheckWinner(next.m, false).Some? || next.m.turn == cfg.maxTurns ==> r == next
    decreases cfg.maxTurns - next.m.turn, 2
  {
    if CheckWinner(next.m, false).Some? then next else RunFrom(cfg, next, s1, s2)
  }

  /** The state after `reset`. */
  function Reset(cfg: Settings): (m: Match)
    ensures Inv(cfg, m) && m.turn == 0
    ensures m.neutral == cfg.neutralTerritory && m.p1 == NewPlayer(cfg) && m.p2 == NewPlayer(cfg)
  {
    Match(0, cfg.neutralTerritory, NewPlayer(cfg), NewPlayer(cfg))
  }

  /**
   * `_result(is_end=True)` of a final state: elimination decides, otherwise
   * the richer player wins, and equal gold is a draw.
   */
  function ResultOf(m: Match): (r: MatchResult)
    ensures r.winner.Some?
    ensures r.turns == m.turn && r.neutral == m.neutral
    ensures r.p1.territory == m.p1.territory && r.p1.gold == m.p1.gold
    ensures r.p1.attack == m.p1.attack && r.p1.defense == m.p1.defense
    ensures r.p2.territory == m.p2.territory && r.p2.gold == m.p2.gold
    ensures r.p2.attack == m.p2.attack && r.p2.defense == m.p2.defense
    ensures r.winner == Some(Player1) <==>
              r.p1.territory > 0 && (r.p2.territory == 0 || r.p1.gold > r.p2.gold)
    ensures r.winner == Some(Player2) <==>
              r.p2.territory > 0 && (r.p1.territory == 0 || r.p2.gold > r.p1.gold)
    ensures r.winner == Some(Draw) <==>
              (r.p1.territory == 0 && r.p2.territory == 0)
              || (r.p1.territory > 0 && r.p2.territory > 0 && r.p1.gold == r.p2.gold)
  {
    MatchResult(CheckWinner(m, true), m.turn, m.neutral, StandingOf(m.p1), StandingOf(m.p2))
  }

  /**
   * `run`: reset, show each strategy its first observation, play at most
   * `maxTurns` turns, and report the winner with `is_end` set.
   */
  function Run(cfg: Settings, s1: Strategy, s2: Strategy): (r: MatchResult)
    requires Valid(cfg)
    ensures r.winner.Some?
    ensures r.turns <= cfg.maxTurns
    ensures r.turns < cfg.maxTurns ==> r.p1.territory == 0 || r.p2.territory == 0
    ensures r.p1.territory + r.p2.territory + r.neutral == TotalCells(cfg)
    ensures r.p1.gold >= 0 && r.p2.gold >= 0
    ensures r.winner == Some(Player1) <==>
              r.p1.territory > 0 && (r.p2.territory == 0 || r.p1.gold > r.p2.gold)
    ensures r.winner == Some(Player2) <==>
              r.p2.territory > 0 && (r.p1.territory == 0 || r.p2.gold > r.p1.gold)
    ensures r.winner == Some(Draw) <==>
              (r.p1.territory == 0 && r.p2.territory == 0)
              || (r.p1.territory > 0 && r.p2.territory > 0 && r.p1.gold == r.p2.gold)
  {
    var m := Reset(cfg);
    var g := Game(m, [PrepareObs(cfg, m, m.p1, m.p2)], [PrepareObs(cfg, m, m.p2, m.p1)]);
    ResultOf(RunFrom(cfg, g, s1, s2).m)
  }

  /** The game seen with the two players exchanged. */
  function SwapGame(g: Game): Game {
    Game(Swap(g.m), g.seen2, g.seen1)
  }

  /** A result seen with the two players exchanged. */
  function SwapResult(r: MatchResult): MatchResult {
    MatchResult(
      match r.winner case None => None case Some(o) => Some(Mirror(o)),
      r.turns, r.neutral, r.p2, r.p1)
  }

  /** Resolving the commands does not depend on which player is called first. */
  lemma ResolveSymmetric(cfg: Settings, m: Match, c1: Command, c2: Command)
    requires Valid(cfg)
    ensures Resolve(cfg, Swap(m), c2, c1) == Swap(Resolve(cfg, m, c1, c2))
  {
    var q1 := ApplyCommands(cfg, m.p1, c1).player;
    var q2 := ApplyCommands(cfg, m.p2, c2).player;
    var before := m.(p1 := q1, p2 := q2);
    AllocationSymmetric(before);
    CombatSymmetric(AllocateNeutral(before));
  }

  /** A turn treats both strategies alike. */
  lemma PlayTurnSymmetric(cfg: Settings, g: Game, s1: Strategy, s2: Strategy)
    requires Valid(cfg)
    ensures PlayTurn(cfg, SwapGame(g), s2, s1) == SwapGame(PlayTurn(cfg, g, s1, s2))
  {
    var m := g.m.(p1 := EarnAndUpkeep(cfg, g.m.p1), p2 := EarnAndUpkeep(cfg, g.m.p2));
    var o1 := PrepareObs(cfg, m, m.p1, m.p2);
    var o2 := PrepareObs(cfg, m, m.p2, m.p1);
    var c1 := SafeStep(s1(g.seen1 + [o1]));
    var c2 := SafeStep(s2(g.seen2 + [o2]));
    ResolveSymmetric(cfg, m, c1, c2);
  }

  /** The next turn of the loop treats both strategies alike. */
  lemma NextTurnSymmetric(cfg: Settings, g: Game, s1: Strategy, s2: Strategy)
    requires Valid(cfg)
    ensures PlayTurn(cfg, Advance(SwapGame(g)), s2, s1) == SwapGame(PlayTurn(cfg, Advance(g), s1, s2))
  {
    assert Advance(SwapGame(g)) == SwapGame(Advance(g));
    PlayTurnSymmetric(cfg, Advance(g), s1, s2);
  }

  /** The match loop treats both strategies alike. */
  lemma {:induction false} RunFromSymmetric(cfg: Settings, g: Game, s1: Strategy, s2: Strategy)
    requires Valid(cfg) && g.m.turn <= cfg.maxTurns
    ensures RunFrom(cfg, SwapGame(g), s2, s1) == SwapGame(RunFrom(cfg, g, s1, s2))
    decreases cfg.maxTurns - g.m.turn, 1
  {
    if g.m.turn < cfg.maxTurns {
      NextTurnSymmetric(cfg, g, s1, s2);
      ContinueSymmetric(cfg, PlayTurn(cfg, Advance(g), s1, s2), s1, s2);
    }
  }

  /** Deciding whether to go on treats both strategies alike. */
  lemma {:induction false} ContinueSymmetric(cfg: Settings, next: Game, s1: Strategy, s2: Strategy)
    requires Valid(cfg) && 0 < next.m.turn <= cfg.maxTurns
    ensures Continue(cfg, SwapGame(next), s2, s1) == SwapGame(Continue(cfg, next, s1, s2))
    decreases cfg.maxTurns - next.m.turn, 2
  {
    WinnerSymmetric(next.m, false);
    if CheckWinner(next.m, false).None? {
      RunFromSymmetric(cfg, next, s1, s2);
    }
  }

  /** Exchanging the two strategies exchanges the whole result: the engine is fair. */
  lemma RunSymmetric(cfg: Settings, s1: Strategy, s2: Strategy)
    requires Valid(cfg)
    ensures Run(cfg, s2, s1) == SwapResult(Run(cfg, s1, s2))
  {
    var m := Reset(cfg);
    var g := Game(m, [PrepareObs(cfg, m, m.p1, m.p2)], [PrepareObs(cfg, m, m.p2, m.p1)]);
    assert Swap(m) == m;
    RunFromSymmetric(cfg, g, s1, s2);
    WinnerSymmetric(RunFrom(cfg, g, s1, s2).m, true);
  }
}

=== FILE: numbers.dfy ===
/** Integer helpers shared by the command and board modules. */
module Numbers {

  /** The smaller of two integers, as Python's `min` gives it. */
  function Min(a: int, b: int): int {
    if a < b then a else b
  }
}

=== FILE: optional.dfy ===
/** An optional value, for results the source leaves as `None`. */
module Optional {

  datatype Option<+T> = None | Some(value: T)
}

=== FILE: pricing.dfy ===
/**
 * The linear price curves of the economy (autork/engine.py:67-111): the next
 * item after `n` costs `base + slope * n`, and a batch is paid item by item at
 * the running count.
 */
module Pricing {
  import opened Config

  /** Price of the item bought when `n` have been counted before it. */
  function LinearPrice(base: nat, slope: nat, n: nat): nat {
    base + slope * n
  }

  /** Total price of `n` consecutive items, the first one priced at position `from`. */
  function LinearCost(base: nat, slope: nat, from: nat, n: nat): nat
    decreases n
  {
    if n == 0 then 0 else LinearPrice(base, slope, from) + LinearCost(base, slope, from + 1, n - 1)
  }

  /** With a positive slope, a later position is strictly dearer. */
  lemma LinearPriceIncreasing(base: nat, slope: nat, m: nat, n: nat)
    requires slope > 0 && m < n
    ensures LinearPrice(base, slope, m) < LinearPrice(base, slope, n)
  {
    assert slope * n == slope * m + slope * (n - m);
  }

  /** Paying one more item appends the price at the next position. */
  lemma {:induction false} LinearCostSnoc(base: nat, slope: nat, from: nat, n: nat)
    ensures LinearCost(base, slope, from, n + 1)
         == LinearCost(base, slope, from, n) + LinearPrice(base, slope, from + n)
    decreases n
  {
    if n > 0 {
      LinearCostSnoc(base, slope, from + 1, n - 1);
    }
  }

  /** Buying more never costs less. */
  lemma {:induction false} LinearCostMonotone(base: nat, slope: nat, from: nat, m: nat, n: nat)
    requires m <= n
    ensures LinearCost(base, slope, from, m) <= LinearCost(base, slope, from, n)
    decreases n - m
  {
    if m < n {
      LinearCostMonotone(base, slope, from, m, n - 1);
      LinearCostSnoc(base, slope, from, n - 1);
    }
  }

  /** Every item of a batch costs at least `base`. */
  lemma {:induction false} LinearCostAtLeastBase(base: nat, slope: nat, from: nat, n: nat)
    ensures LinearCost(base, slope, from, n) >= n * base
    decreases n
  {
    if n > 0 {
      LinearCostAtLeastBase(base, slope, from + 1, n - 1);
      assert n * base == base + (n - 1) * base;
    }
  }

  /** The closed form of an arithmetic series: twice the cost of the batch. */
  lemma {:induction false} LinearCostClosedForm(base: nat, slope: nat, from: nat, n: nat)
    ensures 2 * LinearCost(base, slope, from, n)
         == 2 * n * base + slope * (2 * n * from + n * (n - 1))
    decreases n
  {
    if n > 0 {
      LinearCostClosedForm(base, slope, from + 1, n - 1);
      SeriesStep(base, slope, from, n - 1);
    }
  }

  /** The inductive step of the closed form, as a polynomial identity. */
  lemma SeriesStep(b: int, s: int, f: int, k: int)
    ensures 2 * (b + s * f) + (2 * k * b + s * (2 * k * (f + 1) + k * (k - 1)))
         == 2 * (k + 1) * b + s * (2 * (k + 1) * f + (k + 1) * k)
  {
    var x := 2 * k * (f + 1) + k * (k - 1);
    var y := 2 * (k + 1) * f + (k + 1) * k;
    assert x + 2 * f == y by {
      assert 2 * k * (f + 1) == 2 * k * f + 2 * k;
      assert k * (k - 1) == k * k - k;
      assert 2 * (k + 1) * f == 2 * k * f + 2 * f;
      assert (k + 1) * k == k * k + k;
    }
    assert s * x + s * (2 * f) == s * y;
    assert 2 * (k + 1) * b == 2 * k * b + 2 * b;
  }

  /** Units bought by one greedy call and the gold they cost. */
  datatype Purchase = Purchase(units: nat, spent: nat)

  /**
   * The buy loop: while the remaining `budget` covers the price at the
   * current `count`, buy one unit and raise the count.
   */
  function Greedy(base: nat, slope: nat, count: nat, budget: int): (r: Purchase)
    requires CurveRises(base, slope) || budget < 0
    ensures r.spent == LinearCost(base, slope, count, r.units)
    ensures r.units == 0 || r.spent <= budget
    ensures budget - r.spent < LinearPrice(base, slope, count + r.units)
    decreases budget, if count == 0 then 1 else 0
  {
    var price := LinearPrice(base, slope, count);
    if budget >= price then
      var rest := Greedy(base, slope, count + 1, budget - price);
      Purchase(rest.units + 1, rest.spent + price)
    else
      Purchase(0, 0)
  }

  /** The greedy loop buys exactly the largest affordable batch. */
  lemma GreedyIsMaximal(base: nat, slope: nat, count: nat, budget: int, n: nat)
    requires CurveRises(base, slope) && budget >= 0
    ensures LinearCost(base, slope, count, n) <= budget
        <==> n <= Greedy(base, slope, count, budget).units
  {
    var r := Greedy(base, slope, count, budget);
    if n <= r.units {
      LinearCostMonotone(base, slope, count, n, r.units);
    } else {
      LinearCostSnoc(base, slope, count, r.units);
      LinearCostMonotone(base, slope, count, r.units + 1, n);
    }
  }
}

=== FILE: scenarios.dfy ===
/**
 * Concrete situations from the repository's unit tests (tests/test_engine.py),
 * evaluated on the model with the default settings.
 */
module Scenarios {
  import opened Optional
  import opened Config
  import opened Economy
  import opened Board
  import opened Pricing

  /** Twenty-five cells yield twenty-five gold at the default rate. */
  lemma IncomeIsOnePerCell()
    ensures Income(Defaults(), Player(50, 25, 0, 0, 0, 0, false)) == 25
  {
  }

  /** Three attack and two defense units on 2 gold: all attack units go, defense stays. */
  lemma UpkeepDisbandsAttackFirst()
    ensures var p := Player(2, 30, 3, 2, 0, 0, false);
            var r := ApplyUpkeep(Defaults(), p);
            r.gold == 0 && r.attack == 0 && r.defense == 2
  {
  }

  /**
   * Three cells for 10 + 11 + 12 out of 50 gold; a second batch is priced from
   * the same lifetime count, because paid cells are not yet granted.
   */
  lemma ExpansionPaysRunningPrices()
    ensures var p := Player(50, 30, 0, 0, 0, 0, false);
            var first := PayForExpands(Defaults(), p, 3);
            var second := PayForExpands(Defaults(), first, 3);
            && first.pendingExpands == 3 && first.gold == 17
            && second.pendingExpands == 1 && second.gold == 7
  {
  }

  /** The greedy attack purchase from zero units with 60 gold: 20, then 21, then 22 is too dear. */
  lemma AttackGreedyFromZero()
    ensures Greedy(20, 1, 0, 60) == Purchase(2, 41)
  {
    assert Greedy(20, 1, 2, 19) == Purchase(0, 0);
    assert Greedy(20, 1, 1, 40) == Purchase(1, 21);
  }

  /** Under the default attack curve (20 plus 1 per unit held) 60 gold buys two units for 41. */
  lemma DefaultAttackPrices()
    ensures var p := Player(60, 30, 0, 0, 0, 0, false);
            BuyAttack(Defaults(), p, 60) == Bought(p.(gold := 19, attack := 2), 41)
  {
    AttackGreedyFromZero();
  }

  /** Under the default defense curve (9 plus 3 per unit held) 18 gold buys one unit for 9. */
  lemma DefaultDefensePrices()
    ensures var p := Player(19, 30, 2, 0, 0, 0, false);
            BuyDefense(Defaults(), p, 18) == Bought(p.(gold := 10, defense := 1), 9)
  {
    assert Greedy(9, 3, 1, 9) == Purchase(0, 0);
  }

  /** Pool 5, both bids 3: all three contested, nothing granted. */
  lemma ContestedBidsStayNeutral()
    ensures var p := Player(0, 30, 0, 0, 0, 3, false);
            var r := AllocateNeutral(Match(0, 5, p, p));
            r.p1.territory == 30 && r.p2.territory == 30 && r.neutral == 5
  {
  }

  /** Pool 4, bids 3 and 0: player 1 gains 3 cells, one stays neutral. */
  lemma UniqueBidIsGranted()
    ensures var p := Player(0, 30, 0, 0, 0, 0, false);
            var r := AllocateNeutral(Match(0, 4, p.(pendingExpands := 3), p));
            r.p1.territory == 33 && r.p2.territory == 30 && r.neutral == 1
  {
  }

  /** Attack 12 against defense 10 takes 2 cells, which become neutral. */
  lemma CombatTakesExcessAttack()
    ensures var m := Match(0, 0, Player(0, 30, 12, 5, 0, 0, false), Player(0, 30, 5, 10, 0, 0, false));
            var r := ResolveCombat(m);
            r.p1.territory == 30 && r.p2.territory == 28 && r.neutral == 2
  {
  }

  /** Elimination and the gold tie-break. */
  lemma WinnerExamples()
    ensures CheckWinner(Match(0, 0, Player(0, 0, 0, 0, 0, 0, false), Player(0, 10, 0, 0, 0, 0, false)), false)
            == Some(Player2)
    ensures CheckWinner(Match(0, 0, Player(0, 0, 0, 0, 0, 0, false), Player(0, 0, 0, 0, 0, 0, false)), false)
            == Some(Draw)
    ensures CheckWinner(Match(0, 0, Player(100, 30, 0, 0, 0, 0, false), Player(50, 30, 0, 0, 0, 0, false)), true)
            == Some(Player1)
  {
  }
}
